=== FILE: README.md ===
# dtimer client coordination, modelled in Dafny

dtimer is a distributed delayed-event scheduler. Nodes share one Redis store and coordinate
only through it. This project models the client side of `lib/dtimer.js` as four pure pieces,
proves their properties, and composes them into one node:

- **Configuration** (`config.dfy`, `Node.New`, `Node.SetMaxEvents`). The constructor fills in
  option defaults and validates its arguments. It builds the keyspace (`ns:gl`, `ns:ch`,
  `ns:ei`, `ns:ed`) and the node's private channel `ns:ch:<id>`. The `maxEvents` accessor
  falls back to the configured default whenever it is given a non-positive value.
- **Store transitions** (`roster.dfy`, `store.dfy`). The store is abstract: a roster
  (`seq<string>`), a pending index (id to due time), a payload map (id to message text) and an
  event counter. Join, leave, post and cancel each read the store clock, then run one
  transaction that ends with the update script. Post first increments the counter, before
  and outside that transaction. The script's text is not part of this model.
  It is a function parameter that maps the store and its arguments to a new store and a reply
  `(payloads, interval)`. Every property about what the client writes is therefore stated on
  the store the script receives.
- **Wake timer** (`wake.dfy`, node part in `node.dfy`). The timer slot is `Option<int>`, the
  interval of the armed timer. It is driven by pub/sub messages, by the join reply and by the
  completion of the timeout run.
- **Readiness gate** (`ready.dfy`). While the script loader is not loaded, continuations
  wait in a queue. A single timer bounds the wait.

Some behaviours of the code are easy to misread. The model keeps them as written:

- A pub/sub wake message *replaces* the armed timer. It does not take the smaller of the two
  intervals (`Wake.MessageReplacesTimer`).
- The gate never empties its queue. Reaching the loaded state does not stop its timer either,
  so a released continuation is called again, with an error, when that timer fires
  (`Ready.ReleasedWaiterAlsoTimesOut`).
- When the timeout run cannot read the store time, it calls an undefined callback. The run
  neither emits nor re-arms (`Node.TimeFailureStopsWaking`). A later wake message, a
  successful join (`Node.JoinAfterTimeFailureRearms`) or another timeout run already in
  flight arms the node again.
- Post does not validate `delay`. Event ids come from the store counter, not from the caller.
- Leave ignores its transaction's result. Whether or not it executed, the node unsubscribes
  and the callback runs on the unsubscribe acknowledgement.

## Model

| member | source | states |
|---|---|---|
| Base.Property | lib/dtimer.js:89-90 | a property read yields a value only on an object that has a member with that key, and then the value of the last such member; otherwise it is undefined |
| Config.Create | lib/dtimer.js:30-53 | a missing pub client is rejected; with a sub client the id must be a non-empty string; without one the id is `post-only`; keys and channel are those of the namespace; options default to ns `dt`, maxEvents 8, readyTimeout 30 |
| Config.NodeIdOf | lib/dtimer.js:53 | a node id recovered from a channel name rebuilds exactly that channel |
| Config.ChannelRoundTrip | lib/dtimer.js:47-53 | the channel built for a node id decodes back to that id |
| Config.DistinctNodesDistinctChannels | lib/dtimer.js:53 | nodes in one namespace with different ids get different channels (roster entries) |
| Node.New | lib/dtimer.js:30-72 | construction fails exactly on the constructor's error cases, reporting the constructor's error; a built node carries the constructor's configuration (id, channel, keys, options), no timer, an empty gate and maxEvents equal to the option or 8 |
| Node.NewChannel | lib/dtimer.js:33-53 | a node built with id `me` and default options listens on and registers as `dt:ch:me`, with a 30 s ready timeout |
| Node.SetMaxEvents | lib/dtimer.js:79-81 | the getter afterwards returns the value if it is positive, else the configured default; nothing else changes |
| Node.SetMaxEventsIdempotent | lib/dtimer.js:79-81 | setting a value twice equals setting it once |
| Node.ResetRestoresInitial | lib/dtimer.js:72-81 | after any sequence of sets, a non-positive set restores the value the node had when built, as long as the caller does not change the options object |
| Node.SetAllKeepsConfig | lib/dtimer.js:79-81 | the setter never changes the configuration, and the last set value decides the getter |
| Node.MaxEventsStaysPositive | lib/dtimer.js:72-81 | with a positive default, maxEvents stays positive under any sequence of sets |
| Node.MaxEventsScenario | test/ApiTests.js:74-86 | default 8; setting 3, 0, 12, -1 reads back 3, 8, 12, 8 |
| Roster.RemoveAll | lib/dtimer.js:198 | after removal the channel is absent and nothing new appears |
| Roster.Promote | lib/dtimer.js:147-149 | after registration the channel is at the head |
| Roster.RemoveAllCounts | lib/dtimer.js:198 | removal drops every copy of the channel and keeps every other entry's multiplicity |
| Roster.RemoveAllConcat | lib/dtimer.js:148 | removal acts on each part of the roster independently, so the other entries keep their relative order |
| Roster.RemoveAllAbsent | lib/dtimer.js:198 | removing an absent channel leaves the roster unchanged |
| Roster.PromoteCounts | lib/dtimer.js:147-149 | after join the channel appears exactly once, at index 0; other multiplicities are unchanged |
| Roster.PromoteIdempotent | lib/dtimer.js:147-149 | joining twice gives the same roster as joining once |
| Roster.LeaveAfterJoin | lib/dtimer.js:189-198 | join then leave gives the roster with the channel removed, other entries as before the join |
| Roster.PromotePreservesDistinct | lib/dtimer.js:147-149 | join keeps a duplicate-free roster duplicate-free and adds exactly the channel to its members |
| Roster.RemoveAllPreservesDistinct | lib/dtimer.js:198 | leave keeps the roster duplicate-free and removes exactly the channel from its members |
| Roster.DistinctLength | lib/dtimer.js:147-149 | a duplicate-free roster is as long as its set of members |
| Roster.JoinAllMembers | lib/dtimer.js:147-149 | after a series of joins the roster is duplicate-free and names exactly the old members plus the joiners |
| Roster.JoinedRosterSize | test/MultiNodes.js:128-131 | N distinct nodes joining an empty roster leave exactly N entries |
| Store.NowMs | lib/dtimer.js:133-138 | store time in ms lies in `[sec*1000, sec*1000+999]` for an in-range microsecond count |
| Store.NowMsDecodes | lib/dtimer.js:136 | the ms value gives back the seconds and the whole milliseconds of the TIME reply |
| Store.NowMsMonotonic | lib/dtimer.js:136 | a later TIME reply never gives an earlier ms value |
| Store.JoinEdit | lib/dtimer.js:147-149 | join's edit puts the channel once at the head, keeps other roster entries, leaves maps and counter alone |
| Store.LeaveEdit | lib/dtimer.js:198 | leave's edit removes the channel, keeps other roster entries, leaves maps and counter alone |
| Store.Increment | lib/dtimer.js:232 | the counter increases by exactly one and nothing else changes |
| Store.Schedule | lib/dtimer.js:235-236 | the id is scheduled at the due time with its message; no other id's entries change |
| Store.PostEdit | lib/dtimer.js:232-236 | the counter increases by one; the new counter value maps to `now+delay` and to the message; no other id's entry changes |
| Store.CancelEdit | lib/dtimer.js:267-269 | the id leaves both maps; every other entry and the roster and counter are unchanged |
| Store.EditsKeepIdsIssued | lib/dtimer.js:232-236 | every edit keeps all stored ids at or below the counter, so the next post's id is fresh |
| Store.CancelAbsent | lib/dtimer.js:267-269 | cancelling an absent id changes nothing |
| Store.CancelIdempotent | lib/dtimer.js:267-269 | cancelling twice equals cancelling once |
| Store.PostThenCancel | lib/dtimer.js:228-284 | posting a fresh id then cancelling it restores both maps; only the counter stays advanced |
| Store.JoinTx | lib/dtimer.js:140-174 | join fails iff TIME or the transaction fails, leaving the store unchanged; otherwise the script sees the join edit with refresh arguments and its interval is returned |
| Store.LeaveTx | lib/dtimer.js:189-214 | leave fails only when TIME fails; a failed transaction is not reported; otherwise the script sees the leave edit |
| Store.PostTx | lib/dtimer.js:228-253 | post fails iff TIME, the increment or the transaction fails; a failed transaction still advances the counter; success returns id counter+1 and the script sees the post edit |
| Store.CancelTx | lib/dtimer.js:263-284 | cancel fails iff TIME or the transaction fails, leaving the store unchanged; otherwise the script sees the cancel edit |
| Store.SuccessivePostsGetDistinctIds | lib/dtimer.js:232-249 | with a script that keeps the counter, two successful posts get consecutive ids |
| Store.FailedPostConsumesId | lib/dtimer.js:232-249 | an id taken by a post whose transaction failed is skipped by the next post |
| Store.JoinLeaveRoster | lib/dtimer.js:147-198 | with a script that keeps the roster, join leaves `Promote(roster)` and leave leaves `RemoveAll(roster)` |
| Wake.OnSubMessage | lib/dtimer.js:87-101 | a malformed or null message emits an error and keeps the timer; a numeric interval replaces the timer; any other message changes nothing silently; an armed timer is never lost |
| Wake.MessageReplacesTimer | lib/dtimer.js:90-95 | the timer becomes exactly the announced interval, even when that is longer than the armed one |
| Wake.NonNumericIntervalIgnored | test/ApiTests.js:123-137 | `{"interval":true}` neither arms the timer nor emits an error |
| Wake.OnSubMessageIdempotent | lib/dtimer.js:87-101 | receiving the same message twice leaves the same armed interval as receiving it once (the countdown restart is not modelled) |
| Wake.RepeatedIntervalLastWins | lib/dtimer.js:89-90 | in `{"interval":5,"interval":true}` the last member decides, so the message is ignored |
| Wake.Events | lib/dtimer.js:308-319 | only events for parsed payloads are emitted, and no more events than payloads |
| Wake.EventsConcat | lib/dtimer.js:309-318 | events follow the reply order payload by payload |
| Wake.EventsCount | lib/dtimer.js:309-318 | exactly one event per payload that parses |
| Wake.EventsAllParsed | lib/dtimer.js:309-318 | when every payload parses, the i-th event is the i-th payload's value |
| Wake.OnTimeoutStart | lib/dtimer.js:288 | the timer slot is cleared when the run starts |
| Wake.OnTimeoutComplete | lib/dtimer.js:301-325 | the run always leaves a timer; it re-arms only if none was armed meanwhile, with 3000 after a script error and the reply's interval otherwise; it emits one event per parsed payload and nothing on error |
| Wake.MessageDuringTimeoutWins | lib/dtimer.js:321-324 | a wake message that arrives during the run decides the next timer |
| Wake.UndisturbedTimeoutRearms | lib/dtimer.js:302-324 | without a message in between, the run re-arms with the reply's interval, or 3000 on error |
| Ready.Release | lib/dtimer.js:110-112 | every queued continuation is called, in queue order, with the given signal |
| Ready.CallOnReady | lib/dtimer.js:103-118 | when loaded, the continuation runs at once; otherwise it is appended and a `readyTimeout*1000` ms timer is armed iff none was armed |
| Ready.OnReadyTimeout | lib/dtimer.js:108-113 | the firing timer clears itself and calls every queued continuation with an error; the queue stays |
| Ready.OnLoaderState | lib/dtimer.js:57-63 | on reaching state 3 every queued continuation is called to proceed; the queue and timer stay |
| Ready.WaitersShareOneTimer | lib/dtimer.js:105-114 | any number of waiting operations arm at most one timer, are all queued in order and none runs |
| Ready.LoadedRunsAtOnce | lib/dtimer.js:105-117 | once loaded, every operation runs at once, in order, and the gate is unchanged |
| Ready.WaitersAllTimeOut | test/ApiTests.js:169-227 | operations waiting from a fresh gate all fail, in order, when the timer fires, and stay queued |
| Ready.ReleasedWaiterAlsoTimesOut | lib/dtimer.js:57-113 | a continuation released by the loader is called again with an error when the still-armed timer fires |
| Ready.TimeoutRepeatsForOldWaiters | lib/dtimer.js:103-113 | after a firing, a new waiter arms a fresh timer whose firing fails the older waiters again |
| Node.Join | lib/dtimer.js:120-131 | join is refused iff the node has no sub client; otherwise only the gate changes |
| Node.Leave | lib/dtimer.js:176-187 | leave is refused iff the node has no sub client; otherwise it passes the gate |
| Node.Post | lib/dtimer.js:216-226 | post throws iff the payload is not of type object (null passes, as `"null"`); otherwise its JSON text waits at the gate |
| Node.Cancel | lib/dtimer.js:255-261 | cancel always goes to the gate |
| Node.Execute | lib/dtimer.js:140-284 | join re-arms with the script's interval on success; leave clears the timer whatever happens; post and cancel leave the node alone; each transaction uses the node's own channel |
| Node.Resume | lib/dtimer.js:127-130 | a timed-out continuation reports the error and touches nothing; a released one runs the request |
| Node.JoinArmsScriptInterval | lib/dtimer.js:160-170 | a successful join arms the interval the script computed after registering the node |
| Node.LeaveClearsTimerFirst | lib/dtimer.js:191-196 | leave clears the timer even when the store time cannot be read |
| Node.OnSubMessage | lib/dtimer.js:87-101 | a channel message changes only the node's timer, as the wake machine prescribes |
| Node.TimeoutFires | lib/dtimer.js:286-288 | the timer slot is cleared and nothing else changes |
| Node.ParseAll | lib/dtimer.js:309-312 | each harvested text is parsed in place |
| Node.HarvestArgs | lib/dtimer.js:291-300 | the timeout run asks the script for at most the current maxEvents on behalf of the node's own channel |
| Node.TimeoutCompletes | lib/dtimer.js:286-328 | a TIME failure changes nothing and re-arms nothing; otherwise the node always ends with a timer, a script error re-arms at 3000, and a reply re-arms at its interval and emits one event per parsed payload |
| Node.HarvestEmitsParsedPayloads | lib/dtimer.js:308-319 | the emitted events are exactly the parsed harvested payloads, in reply order |
| Node.MessageDuringTimeoutWins | lib/dtimer.js:286-324 | a wake message during the run decides the next timer, whether or not the run can read the store time |
| Node.TimeFailureStopsWaking | lib/dtimer.js:289-290 | when TIME fails in the run, the node is left with no timer |
| Node.LeaveDuringTimeoutRearms | lib/dtimer.js:321-324 | a leave during the run does not stop the node: the run, whose script sees the store before the leave, re-arms |
| Node.JoinAfterTimeFailureRearms | lib/dtimer.js:160-170 | after a run whose TIME read failed has left the node without a timer, a successful join arms it again |

## Left out

- The update script (`update.lua`) is not part of this model. It is a function parameter
  (`Store.UpdateScript`). Its redelivery sweep, harvest order and interval computation are
  not modelled. Lemmas about the roster or the counter after a whole transaction assume a
  script that leaves those keys alone.
- Confirm, changeDelay, peek, upcoming, the in-flight index and caller-supplied event ids.
  They do not exist in this version of the client.
- Redis I/O is reduced to outcome flags (`Store.StoreIo`, `Node.TimeoutIo`): TIME, the
  counter increment, the transaction and the timeout run's script call. Subscribe and
  unsubscribe acknowledgements and pub/sub transport are not modelled.
- Store.JoinTx, Store.LeaveTx, Store.PostTx, Store.CancelTx, Node.TimeoutCompletes: a failed
  transaction or a failed script call is modelled as changing nothing. Partial execution of
  a Redis transaction is not modelled. Neither is a Lua error in mid-script, which keeps the
  writes made before it.
- Store.PostTx: event ids are unbounded integers. In the source the counter's reply reaches
  the callback and the store commands as a JavaScript number (lib/dtimer.js:232-236), which
  is rounded above 2^53. So the distinct ids of `Store.SuccessivePostsGetDistinctIds` hold in
  the source only below 2^53.
- Real timers and wall-clock timing are not modelled. A timer is the interval it was armed
  with. setTimeout's treatment of delays that are negative, fractional or above 2147483647 ms
  is left out: Node runs those after 1 ms. This applies to the wake-message interval, the
  join reply, the script reply and `readyTimeout*1000` (lib/dtimer.js:95, 113, 169, 323).
  Multi-node fairness and latency are also left out.
- JSON parsing and serialisation are external. A parse is a `ParseResult`. An object payload
  carries its own JSON text (`Node.PostArg`). JSON numbers are integers.
- JavaScript coercions are not modelled: `num > 0` on non-numbers, `now + delay` with a
  string delay, fractional values.
- Node.SetMaxEvents: takes integer arguments only. In the source `num > 0` first converts
  its argument to a number. A value that converts to a positive number (`"3"`, `true`,
  `[2]`) is stored unchanged, as the string, boolean or array. A value that converts to NaN
  or to a number at most 0 (`"abc"`, `null`, `undefined`, `{}`) resets to the default.
- Node.TimeoutCompletes: the timeout run is one step over one node state. In the source it
  spans two callbacks. The TIME callback reads `_maxEvents` and sends the script call
  (lib/dtimer.js:289-300). The script callback reads `_timer` (lib/dtimer.js:321). A wake
  message or a leave between them is modelled (`Node.MessageDuringTimeoutWins`,
  `Node.LeaveDuringTimeoutRearms`). A `maxEvents` set between the TIME reply and the script
  reply is not: the model sends the value current at completion.
- Node.ResetRestoresInitial: the defaults are copied into an immutable `Config.Settings`
  when the node is built. In the source the options object is the caller's own object,
  filled in place (lib/dtimer.js:33). The setter reads `maxEvents` from it each time it
  runs (lib/dtimer.js:80). So the lemma holds only while the caller leaves that object
  unchanged.
- Ready.CallOnReady: the timer length comes from the `readyTimeout` fixed at construction.
  The source reads it from the shared options object when the timer is armed
  (lib/dtimer.js:113), with the same gap as above.
- Store.LeaveTx: `Done` stands for the unsubscribe acknowledgement that triggers leave's
  callback (lib/dtimer.js:209-212). The arguments of that event, such as the channel and the
  subscription count, are not modelled. If the acknowledgement never arrives, the callback
  never runs, and that is not modelled either.
- Node.Cancel: event ids are integers. A non-numeric id can never name a stored event, so
  it behaves as the absent-id case.
- The timeout run's TIME failure calls an undefined callback, which throws inside the Redis
  client's callback. The model stops the run there. The thrown exception is not modelled.
- The script loader's `load` failure, which emits `'error'` from the load callback the constructor registers
  (lib/dtimer.js:64-71), is not modelled. Debug logging and the event-emitter plumbing are
  left out, and so is `repro/issue_003/test.js`.

=== FILE: base.dfy ===
/**
 * Shared vocabulary of the dtimer model: an optional value, and the JSON
 * values that travel as pub/sub wake messages and as event payloads.
 */
module Base {

  datatype Option<+T> = None | Some(value: T)

  /** A parsed JSON document.  Numbers are modelled as integers. */
  datatype JsonValue =
    | JNull
    | JBool(b: bool)
    | JNumber(n: int)
    | JString(s: string)
    | JArray(items: seq<JsonValue>)
    | JObject(members: seq<Member>)

  datatype Member = Member(key: string, value: JsonValue)

  /** What parsing a text as JSON yields: a value, or a thrown syntax error. */
  datatype ParseResult = Malformed | Parsed(value: JsonValue)

  /**
   * The value of property `key` of a parsed value other than null, or None
   * when the property is undefined.  Only objects own properties, and when
   * a key is repeated in the text the last member wins.
   */
  function Property(v: JsonValue, key: string): (r: Option<JsonValue>)
    ensures r.Some? ==> v.JObject? && Member(key, r.value) in v.members
    ensures r.None? <==> !v.JObject? || forall m :: m in v.members ==> m.key != key
    ensures r.Some? ==> exists i :: 0 <= i < |v.members| && v.members[i] == Member(key, r.value)
                                    && forall j :: i < j < |v.members| ==> v.members[j].key != key
  {
    if v.JObject? then LastWith(v.members, key) else None
  }

  /** The value of the last member named `key`: no later member has that key. */
  function LastWith(ms: seq<Member>, key: string): (r: Option<JsonValue>)
    ensures r.Some? ==> Member(key, r.value) in ms
    ensures r.None? <==> forall m :: m in ms ==> m.key != key
    ensures r.Some? ==> exists i :: 0 <= i < |ms| && ms[i] == Member(key, r.value)
                                    && forall j :: i < j < |ms| ==> ms[j].key != key
  {
    if |ms| == 0 then None
    else if ms[|ms| - 1].key == key then
      assert ms[|ms| - 1] == Member(key, ms[|ms| - 1].value);
      Some(ms[|ms| - 1].value)
    else
      var init := ms[..|ms| - 1];
      var r := LastWith(init, key);
      if r.Some? then
        var i :| 0 <= i < |init| && init[i] == Member(key, r.value)
                 && forall j :: i < j < |init| ==> init[j].key != key;
        assert ms[i] == init[i];
        assert forall j :: i < j < |ms| ==> ms[j].key != key by {
          forall j | i < j < |ms| ensures ms[j].key != key {
            if j < |ms| - 1 { assert ms[j] == init[j]; }
          }
        }
        r
      else r
  }
}

=== FILE: config.dfy ===
/**
 * Construction of a dtimer instance: option defaults, argument validation,
 * the store keyspace and the node's private pub/sub channel name.
 */
module Config {
  import opened Base

  /** Library defaults, taken for every option the caller leaves undefined. */
  const DefaultNs: string := "dt"
  const DefaultMaxEvents: int := 8
  const DefaultReadyTimeout: int := 30  // seconds

  /** The node id forced on an instance that has no subscriber connection. */
  const PostOnlyId: string := "post-only"

  /** The caller's options object; None stands for an undefined property. */
  datatype Options = Options(ns: Option<string>, maxEvents: Option<int>, readyTimeout: Option<int>)

  /** The options once every undefined property has taken its default. */
  datatype Settings = Settings(ns: string, maxEvents: int, readyTimeout: int)

  function FillDefaults(o: Options): Settings {
    Settings(
      if o.ns.Some? then o.ns.value else DefaultNs,
      if o.maxEvents.Some? then o.maxEvents.value else DefaultMaxEvents,
      if o.readyTimeout.Some? then o.readyTimeout.value else DefaultReadyTimeout)
  }

  /** The constructor's id argument: a string, or any other JavaScript value
      (undefined, null, a number, ...). */
  datatype IdArg = StringId(s: string) | OtherId

  predicate IsNonEmptyString(id: IdArg) {
    id.StringId? && |id.s| > 0
  }

  /** Store keys: legacy counters, roster, pending index, payload map. */
  datatype Keys = Keys(gl: string, ch: string, ei: string, ed: string)

  function KeysFor(ns: string): Keys {
    Keys(ns + ":gl", ns + ":ch", ns + ":ei", ns + ":ed")
  }

  /** The private channel of node `nodeId`, which is also its roster entry. */
  function ChannelOf(ns: string, nodeId: string): string {
    KeysFor(ns).ch + ":" + nodeId
  }

  /** Recovers the node id from a channel name of namespace `ns`. */
  function NodeIdOf(ns: string, channel: string): (r: Option<string>)
    ensures r.Some? ==> ChannelOf(ns, r.value) == channel
  {
    var p := ns + ":ch:";
    assert KeysFor(ns).ch + ":" == p;
    if |p| <= |channel| && channel[..|p|] == p then
      assert channel == p + channel[|p|..];
      Some(channel[|p|..])
    else None
  }

  /** The channel built for a node id decodes back to that id. */
  lemma ChannelRoundTrip(ns: string, nodeId: string)
    ensures NodeIdOf(ns, ChannelOf(ns, nodeId)) == Some(nodeId)
  {
  }

  /** Distinct node ids in one namespace get distinct channels. */
  lemma ChannelInjective(ns: string, a: string, b: string)
    requires ChannelOf(ns, a) == ChannelOf(ns, b)
    ensures a == b
  {
    ChannelRoundTrip(ns, a);
    ChannelRoundTrip(ns, b);
  }

  datatype Config = Config(settings: Settings, keys: Keys, nodeId: string, channel: string, canReceive: bool)

  /** The keys and the channel are those of the configured namespace. */
  predicate WellFormed(c: Config) {
    && c.keys == KeysFor(c.settings.ns)
    && c.channel == ChannelOf(c.settings.ns, c.nodeId)
  }

  datatype ConfigError = MissingPub | InvalidId

  datatype Created = Created(cfg: Config) | Rejected(error: ConfigError)

  /**
   * The constructor.  `hasPub` and `hasSub` say whether the publishing and the
   * subscribing store connections were supplied.
   */
  function Create(id: IdArg, hasPub: bool, hasSub: bool, o: Options): (r: Created)
    ensures r == Rejected(MissingPub) <==> !hasPub
    ensures r == Rejected(InvalidId) <==> hasPub && hasSub && !IsNonEmptyString(id)
    ensures r.Created? ==> WellFormed(r.cfg) && r.cfg.canReceive == hasSub
    ensures r.Created? && hasSub ==> r.cfg.nodeId == id.s && |r.cfg.nodeId| > 0
    ensures r.Created? && !hasSub ==> r.cfg.nodeId == PostOnlyId
    ensures r.Created? ==> NodeIdOf(r.cfg.settings.ns, r.cfg.channel) == Some(r.cfg.nodeId)
    ensures r.Created? ==> r.cfg.settings.ns == (if o.ns.Some? then o.ns.value else DefaultNs)
    ensures r.Created? ==> r.cfg.settings.maxEvents == (if o.maxEvents.Some? then o.maxEvents.value else DefaultMaxEvents)
    ensures r.Created? ==> r.cfg.settings.readyTimeout == (if o.readyTimeout.Some? then o.readyTimeout.value else DefaultReadyTimeout)
  {
    var settings := FillDefaults(o);
    if !hasPub then Rejected(MissingPub)
    else if hasSub && !IsNonEmptyString(id) then Rejected(InvalidId)
    else
      var nodeId := if hasSub then id.s else PostOnlyId;
      ChannelRoundTrip(settings.ns, nodeId);
      Created(Config(settings, KeysFor(settings.ns), nodeId, ChannelOf(settings.ns, nodeId), hasSub))
  }

  /** Two instances built in the same namespace with different node ids
      publish on, and register in the roster under, different channels. */
  lemma DistinctNodesDistinctChannels(a: Config, b: Config)
    requires WellFormed(a) && WellFormed(b)
    requires a.settings.ns == b.settings.ns && a.nodeId != b.nodeId
    ensures a.channel != b.channel
  {
    if a.channel == b.channel {
      ChannelInjective(a.settings.ns, a.nodeId, b.nodeId);
    }
  }
}

=== FILE: node.dfy ===
/**
 * One dtimer instance: its configuration, the `maxEvents` throttle, its wake
 * timer and its readiness gate.  Public operations are checked, pass the
 * gate, and then run their store transaction; the wake timer's firing runs
 * the update script on the node's own behalf and emits what it harvests.
 */
module Node {
  import opened Base
  import Config
  import Store
  import Wake
  import Ready

  /** A public operation, as it waits at the readiness gate. */
  datatype Request =
    | JoinReq
    | LeaveReq
    | PostReq(msg: string, delay: int)
    | CancelReq(id: Store.EventId)

  datatype Node = Node(cfg: Config.Config, maxEvents: int, timer: Option<int>, gate: Ready.Gate<Request>)

  datatype NewResult = NewNode(node: Node) | NewFailed(error: Config.ConfigError)

  /** The constructor: no timer, an empty gate, and the configured
      `maxEvents` (8 unless an option overrides it). */
  function New(id: Config.IdArg, hasPub: bool, hasSub: bool, o: Config.Options): (r: NewResult)
    ensures r.NewFailed? <==> !hasPub || (hasSub && !Config.IsNonEmptyString(id))
    ensures r.NewNode? <==> Config.Create(id, hasPub, hasSub, o).Created?
    ensures r.NewNode? ==> r.node.cfg == Config.Create(id, hasPub, hasSub, o).cfg
    ensures r.NewFailed? ==> Config.Create(id, hasPub, hasSub, o) == Config.Rejected(r.error)
    ensures r.NewNode? ==> Config.WellFormed(r.node.cfg) && r.node.cfg.canReceive == hasSub
    ensures r.NewNode? ==> MaxEvents(r.node) == (if o.maxEvents.Some? then o.maxEvents.value else Config.DefaultMaxEvents)
    ensures r.NewNode? ==> r.node.timer.None? && r.node.gate == Ready.Gate([], false)
  {
    match Config.Create(id, hasPub, hasSub, o)
    case Rejected(e) => NewFailed(e)
    case Created(cfg) => NewNode(Node(cfg, cfg.settings.maxEvents, None, Ready.Gate([], false)))
  }

  /** With the default options, node `me` is known by the channel `dt:ch:me`. */
  lemma NewChannel()
    ensures var r := New(Config.StringId("me"), true, true, Config.Options(None, None, None));
      && r.NewNode?
      && r.node.cfg.channel == "dt:ch:me"
      && r.node.cfg.nodeId == "me"
      && r.node.cfg.settings.readyTimeout == 30
  {
  }

  // ---------------------------------------------------------------------
  // The maxEvents accessor pair.
  // ---------------------------------------------------------------------

  function MaxEvents(n: Node): int {
    n.maxEvents
  }

  /** The setter keeps a positive value and otherwise falls back to the
      configured default; nothing else about the node changes. */
  function SetMaxEvents(n: Node, num: int): (r: Node)
    ensures MaxEvents(r) == (if num > 0 then num else n.cfg.settings.maxEvents)
    ensures r.(maxEvents := n.maxEvents) == n
  {
    n.(maxEvents := if num > 0 then num else n.cfg.settings.maxEvents)
  }

  /** Setting the same value twice is the same as setting it once. */
  lemma SetMaxEventsIdempotent(n: Node, num: int)
    ensures SetMaxEvents(SetMaxEvents(n, num), num) == SetMaxEvents(n, num)
  {
  }

  /** A non-positive value restores what the node reported when it was built,
      whatever was set in between. */
  lemma ResetRestoresInitial(id: Config.IdArg, hasPub: bool, hasSub: bool, o: Config.Options,
                             sets: seq<int>, num: int)
    requires New(id, hasPub, hasSub, o).NewNode?
    requires num <= 0
    ensures MaxEvents(SetMaxEvents(SetAll(New(id, hasPub, hasSub, o).node, sets), num))
            == MaxEvents(New(id, hasPub, hasSub, o).node)
  {
    SetAllKeepsConfig(New(id, hasPub, hasSub, o).node, sets);
  }

  /** The node after the setter has been called with each value in turn. */
  function SetAll(n: Node, nums: seq<int>): Node
    decreases |nums|
  {
    if |nums| == 0 then n else SetAll(SetMaxEvents(n, nums[0]), nums[1..])
  }

  lemma {:induction false} SetAllKeepsConfig(n: Node, nums: seq<int>)
    ensures SetAll(n, nums).cfg == n.cfg
    ensures |nums| > 0 ==> MaxEvents(SetAll(n, nums)) == MaxEvents(SetMaxEvents(n, nums[|nums| - 1]))
    decreases |nums|
  {
    if |nums| > 0 {
      SetAllKeepsConfig(SetMaxEvents(n, nums[0]), nums[1..]);
    }
  }

  /** With a positive configured default, the throttle stays positive
      however the setter is used. */
  lemma {:induction false} MaxEventsStaysPositive(n: Node, nums: seq<int>)
    requires n.cfg.settings.maxEvents > 0 && n.maxEvents > 0
    ensures MaxEvents(SetAll(n, nums)) > 0
    decreases |nums|
  {
    if |nums| > 0 {
      MaxEventsStaysPositive(SetMaxEvents(n, nums[0]), nums[1..]);
    }
  }

  /** Default 8; set 3, 0, 12, -1 in turn: the getter reads 3, 8, 12, 8. */
  lemma MaxEventsScenario(id: Config.IdArg, hasPub: bool)
    requires New(id, hasPub, false, Config.Options(None, None, None)).NewNode?
    ensures var n0 := New(id, hasPub, false, Config.Options(None, None, None)).node;
      && MaxEvents(n0) == 8
      && MaxEvents(SetMaxEvents(n0, 3)) == 3
      && MaxEvents(SetMaxEvents(SetMaxEvents(n0, 3), 0)) == 8
      && MaxEvents(SetMaxEvents(SetMaxEvents(SetMaxEvents(n0, 3), 0), 12)) == 12
      && MaxEvents(SetMaxEvents(SetMaxEvents(SetMaxEvents(SetMaxEvents(n0, 3), 0), 12), -1)) == 8
  {
  }

  // ---------------------------------------------------------------------
  // Entry points: checks made before the readiness gate, then the gate.
  // ---------------------------------------------------------------------

  /** The `post` payload argument: an object (carrying its JSON text), null,
      or any other value, whose type is not "object". */
  datatype PostArg = ObjectArg(json: string) | NullArg | OtherArg

  /** The message stored for an accepted payload (its JSON text). */
  function Serialize(ev: PostArg): string
    requires !ev.OtherArg?
  {
    if ev.NullArg? then "null" else ev.json
  }

  /** Thrown: the call raised an exception.  Refused: the callback received an
      error at once.  Gated: the request met the readiness gate. */
  datatype Submission = Thrown | Refused | Gated(node: Node, step: Ready.GateStep<Request>)

  function Enter(n: Node, req: Request, loaderState: int): Submission {
    var st := Ready.CallOnReady(n.gate, loaderState, n.cfg.settings.readyTimeout, req);
    Gated(n.(gate := st.gate), st)
  }

  /** What passing the gate means for a request: it runs now when the scripts
      are loaded, and is queued otherwise; only the gate changes. */
  ghost predicate PassedGate(n: Node, req: Request, loaderState: int, r: Submission) {
    && r.Gated?
    && r.node.(gate := n.gate) == n
    && (loaderState == Ready.Loaded ==> r.step.calls == [Ready.Call(req, Ready.Proceed)])
    && (loaderState != Ready.Loaded ==> r.node.gate.queue == n.gate.queue + [req] && r.step.calls == [])
  }

  /** `join`: refused without a subscriber connection. */
  function Join(n: Node, loaderState: int): (r: Submission)
    ensures r.Refused? <==> !n.cfg.canReceive
    ensures n.cfg.canReceive ==> PassedGate(n, JoinReq, loaderState, r)
  {
    if !n.cfg.canReceive then Refused else Enter(n, JoinReq, loaderState)
  }

  /** `leave`: refused without a subscriber connection. */
  function Leave(n: Node, loaderState: int): (r: Submission)
    ensures r.Refused? <==> !n.cfg.canReceive
    ensures n.cfg.canReceive ==> PassedGate(n, LeaveReq, loaderState, r)
  {
    if !n.cfg.canReceive then Refused else Enter(n, LeaveReq, loaderState)
  }

  /** `post`: a payload that is not of type object throws before anything
      else happens; otherwise its JSON text waits at the gate. */
  function Post(n: Node, ev: PostArg, delay: int, loaderState: int): (r: Submission)
    ensures r.Thrown? <==> ev.OtherArg?
    ensures ev.ObjectArg? ==> PassedGate(n, PostReq(ev.json, delay), loaderState, r)
    ensures ev.NullArg? ==> PassedGate(n, PostReq("null", delay), loaderState, r)
  {
    if ev.OtherArg? then Thrown else Enter(n, PostReq(Serialize(ev), delay), loaderState)
  }

  /** `cancel`: no checks before the gate. */
  function Cancel(n: Node, id: Store.EventId, loaderState: int): (r: Submission)
    ensures PassedGate(n, CancelReq(id), loaderState, r)
  {
    Enter(n, CancelReq(id), loaderState)
  }

  // ---------------------------------------------------------------------
  // Running a request that passed the gate.
  // ---------------------------------------------------------------------

  datatype Executed = Executed(node: Node, store: Store.Store, outcome: Store.Outcome)

  /**
   * Join re-arms the timer with the interval the script returns; leave clears
   * the timer before it touches the store; post and cancel leave the node
   * alone.  Every transaction names the node by its own channel.
   */
  function Execute(n: Node, s: Store.Store, req: Request, io: Store.StoreIo, update: Store.UpdateScript): (r: Executed)
    ensures req.JoinReq? ==> Store.StoreStep(r.store, r.outcome) == Store.JoinTx(s, n.cfg.channel, io, update)
    ensures req.JoinReq? && r.outcome.DoneWithInterval? ==> r.node == n.(timer := Some(r.outcome.interval))
    ensures req.JoinReq? && r.outcome.Failed? ==> r.node == n
    ensures req.LeaveReq? ==> Store.StoreStep(r.store, r.outcome) == Store.LeaveTx(s, n.cfg.channel, io, update)
    ensures req.LeaveReq? ==> r.node == n.(timer := None)
    ensures req.PostReq? ==> Store.StoreStep(r.store, r.outcome) == Store.PostTx(s, req.msg, req.delay, io, update)
    ensures req.CancelReq? ==> Store.StoreStep(r.store, r.outcome) == Store.CancelTx(s, req.id, io, update)
    ensures req.PostReq? || req.CancelReq? ==> r.node == n
  {
    match req
    case JoinReq =>
      var st := Store.JoinTx(s, n.cfg.channel, io, update);
      var n' := if st.outcome.DoneWithInterval? then n.(timer := Some(st.outcome.interval)) else n;
      Executed(n', st.store, st.outcome)
    case LeaveReq =>
      var st := Store.LeaveTx(s, n.cfg.channel, io, update);
      Executed(n.(timer := None), st.store, st.outcome)
    case PostReq(msg, delay) =>
      var st := Store.PostTx(s, msg, delay, io, update);
      Executed(n, st.store, st.outcome)
    case CancelReq(id) =>
      var st := Store.CancelTx(s, id, io, update);
      Executed(n, st.store, st.outcome)
  }

  /** A continuation called by the gate: a timed-out request reports the error
      and touches nothing; a released one runs. */
  function Resume(n: Node, s: Store.Store, c: Ready.Call<Request>, io: Store.StoreIo, update: Store.UpdateScript): (r: Executed)
    ensures c.signal.TimedOut? ==> r == Executed(n, s, Store.Failed)
    ensures c.signal.Proceed? ==> r == Execute(n, s, c.cb, io, update)
  {
    if c.signal.TimedOut? then Executed(n, s, Store.Failed) else Execute(n, s, c.cb, io, update)
  }

  /** A successful join leaves the node with a timer for the interval the
      script computed after registering the node. */
  lemma JoinArmsScriptInterval(n: Node, s: Store.Store, io: Store.StoreIo, update: Store.UpdateScript)
    requires io.time.Time? && io.execOk
    ensures var now := Store.NowMs(io.time.sec, io.time.usec);
      Execute(n, s, JoinReq, io, update).node.timer
        == Some(update(Store.JoinEdit(s, n.cfg.channel), Store.RefreshArgs(now)).reply.interval)
  {
  }

  /** Leave clears the timer even when the store cannot be reached. */
  lemma LeaveClearsTimerFirst(n: Node, s: Store.Store, io: Store.StoreIo, update: Store.UpdateScript)
    requires io.time.TimeFailed?
    ensures Execute(n, s, LeaveReq, io, update) == Executed(n.(timer := None), s, Store.Failed)
  {
  }

  // ---------------------------------------------------------------------
  // The wake timer.
  // ---------------------------------------------------------------------

  datatype Received = Received(node: Node, emitted: seq<Wake.Emission>)

  /** A message on the node's channel drives its timer; nothing else changes. */
  function OnSubMessage(n: Node, m: ParseResult): (r: Received)
    ensures r.node.(timer := n.timer) == n
    ensures Wake.WakeStep(r.node.timer, r.emitted) == Wake.OnSubMessage(n.timer, m)
  {
    var w := Wake.OnSubMessage(n.timer, m);
    Received(n.(timer := w.timer), w.emitted)
  }

  /** The timer fires and the timeout run starts: the slot is cleared. */
  function TimeoutFires(n: Node): (r: Node)
    ensures r.timer.None? && r.(timer := n.timer) == n
  {
    n.(timer := Wake.OnTimeoutStart(n.timer))
  }

  /** How the store answers a timeout run: the TIME reply, and whether the
      script ran. */
  datatype TimeoutIo = TimeoutIo(time: Store.TimeReply, scriptOk: bool)

  datatype Completed = Completed(node: Node, store: Store.Store, emitted: seq<Wake.Emission>)

  function ParseAll(texts: seq<string>, parse: string -> ParseResult): (ps: seq<ParseResult>)
    ensures |ps| == |texts|
    ensures forall i :: 0 <= i < |texts| ==> ps[i] == parse(texts[i])
  {
    seq(|texts|, i requires 0 <= i < |texts| => parse(texts[i]))
  }

  /** The script arguments of a timeout run: the node asks for a batch of at
      most its current `maxEvents`, on its own channel's behalf. */
  function HarvestArgs(n: Node, now: int): (a: Store.UpdateArgs)
    ensures a.requester == n.cfg.channel && a.maxEvents == MaxEvents(n) && a.now == now
  {
    Store.UpdateArgs(n.cfg.channel, now, n.maxEvents)
  }

  /**
   * The timeout run completes.  If the store time cannot be read, the run
   * stops without emitting anything or re-arming.  Otherwise the script runs
   * on the node's behalf; each harvested payload that parses is emitted, in
   * order, and the timer is re-armed unless a wake message armed it meanwhile.
   * `parse` stands for the JSON parser.
   */
  function TimeoutCompletes(n: Node, s: Store.Store, io: TimeoutIo, update: Store.UpdateScript,
                            parse: string -> ParseResult): (r: Completed)
    ensures io.time.TimeFailed? ==> r == Completed(n, s, [])
    ensures r.node.(timer := n.timer) == n
    ensures io.time.Time? ==> r.node.timer.Some?
    ensures io.time.Time? && n.timer.Some? ==> r.node.timer == n.timer
    ensures io.time.Time? && !io.scriptOk ==> r.store == s && r.emitted == []
    ensures io.time.Time? && !io.scriptOk && n.timer.None? ==> r.node.timer == Some(Wake.ErrorFallbackInterval)
    ensures io.time.Time? && io.scriptOk ==>
      var u := update(s, HarvestArgs(n, Store.NowMs(io.time.sec, io.time.usec)));
      && r.store == u.store
      && |r.emitted| == Wake.CountParsed(ParseAll(u.reply.payloads, parse))
      && (n.timer.None? ==> r.node.timer == Some(u.reply.interval))
  {
    if io.time.TimeFailed? then Completed(n, s, [])
    else
      var now := Store.NowMs(io.time.sec, io.time.usec);
      if !io.scriptOk then
        var w := Wake.OnTimeoutComplete(n.timer, Wake.ScriptFailed);
        Completed(n.(timer := w.timer), s, w.emitted)
      else
        var u := update(s, HarvestArgs(n, now));
        var w := Wake.OnTimeoutComplete(n.timer, Wake.ScriptReply(ParseAll(u.reply.payloads, parse), u.reply.interval));
        Completed(n.(timer := w.timer), u.store, w.emitted)
  }

  /** Every harvested payload that parses is emitted as an event, in reply
      order; the others are skipped without an error. */
  lemma HarvestEmitsParsedPayloads(n: Node, s: Store.Store, io: TimeoutIo, update: Store.UpdateScript,
                                   parse: string -> ParseResult)
    requires io.time.Time? && io.scriptOk
    ensures var u := update(s, HarvestArgs(n, Store.NowMs(io.time.sec, io.time.usec)));
      TimeoutCompletes(n, s, io, update, parse).emitted == Wake.Events(ParseAll(u.reply.payloads, parse))
  {
  }

  /** A wake message that arrives while the timeout run waits on the store
      decides the next timer; the run's own interval is dropped. */
  lemma MessageDuringTimeoutWins(n: Node, s: Store.Store, k: int, io: TimeoutIo,
                                 update: Store.UpdateScript, parse: string -> ParseResult)
    ensures var armed := OnSubMessage(TimeoutFires(n), Wake.IntervalMessage(k)).node;
      TimeoutCompletes(armed, s, io, update, parse).node.timer == Some(k)
  {
  }

  /** If the store time cannot be read the run ends there: a node whose timer
      just fired is left with no timer at all. */
  lemma TimeFailureStopsWaking(n: Node, s: Store.Store, io: TimeoutIo,
                               update: Store.UpdateScript, parse: string -> ParseResult)
    requires io.time.TimeFailed?
    ensures TimeoutCompletes(TimeoutFires(n), s, io, update, parse).node.timer.None?
  {
  }

  /** A run whose store time could not be read leaves the node without a
      timer; a later successful join arms it again. */
  lemma JoinAfterTimeFailureRearms(n: Node, s: Store.Store, tio: TimeoutIo, jio: Store.StoreIo,
                                   update: Store.UpdateScript, parse: string -> ParseResult)
    requires tio.time.TimeFailed? && jio.time.Time? && jio.execOk
    ensures var stopped := TimeoutCompletes(TimeoutFires(n), s, tio, update, parse);
      && stopped.node.timer.None?
      && Execute(stopped.node, stopped.store, JoinReq, jio, update).node.timer.Some?
  {
  }

  /** A leave that happens while a timeout run waits on the store does not
      stop the node: the run finds no timer and re-arms one.  The run's script
      call went out on the shared connection before the leave's transaction,
      so the script sees the store `s` as it was before the leave. */
  lemma LeaveDuringTimeoutRearms(n: Node, s: Store.Store, lio: Store.StoreIo, tio: TimeoutIo,
                                 update: Store.UpdateScript, parse: string -> ParseResult)
    requires tio.time.Time?
    ensures var left := Execute(TimeoutFires(n), s, LeaveReq, lio, update);
      && left.node.timer.None?
      && TimeoutCompletes(left.node, s, tio, update, parse).node.timer.Some?
  {
  }
}

=== FILE: ready.dfy ===
/**
 * The readiness gate.  Until the script loader reports that its scripts are
 * loaded, every operation's continuation waits in a queue, and a single
 * timer bounds the wait: when it fires, every queued continuation is called
 * with a timeout error.  The queue is never emptied, and reaching the loaded
 * state neither empties it nor stops the timer.
 */
module Ready {
  import opened Base

  /** The loader state that means "scripts loaded". */
  const Loaded: int := 3

  datatype Gate<C> = Gate(queue: seq<C>, timerArmed: bool)

  /** How a continuation is called: to go ahead, or with a timeout error. */
  datatype Signal = Proceed | TimedOut

  datatype Call<C> = Call(cb: C, signal: Signal)

  /** A gate transition: the new gate, the continuations called now, in order,
      and the duration in milliseconds of a timer armed by it, if any. */
  datatype GateStep<C> = GateStep(gate: Gate<C>, calls: seq<Call<C>>, armMs: Option<int>)

  function Release<C>(q: seq<C>, sig: Signal): (cs: seq<Call<C>>)
    ensures |cs| == |q|
    ensures forall i :: 0 <= i < |q| ==> cs[i] == Call(q[i], sig)
  {
    seq(|q|, i requires 0 <= i < |q| => Call(q[i], sig))
  }

  /**
   * An operation asks to run `cb`.  When the scripts are loaded it runs at
   * once; otherwise it is queued, and the timeout timer (`readyTimeout`
   * seconds) is armed unless one already is.
   */
  function CallOnReady<C>(g: Gate<C>, loaderState: int, readyTimeout: int, cb: C): (r: GateStep<C>)
    ensures loaderState == Loaded ==> r == GateStep(g, [Call(cb, Proceed)], None)
    ensures loaderState != Loaded ==> r.gate.queue == g.queue + [cb] && r.gate.timerArmed && r.calls == []
    ensures r.armMs.Some? <==> loaderState != Loaded && !g.timerArmed
    ensures r.armMs.Some? ==> r.armMs.value == readyTimeout * 1000
  {
    if loaderState != Loaded then
      GateStep(Gate(g.queue + [cb], true), [], if g.timerArmed then None else Some(readyTimeout * 1000))
    else
      GateStep(g, [Call(cb, Proceed)], None)
  }

  /** The timeout timer fires: it forgets itself and calls every queued
      continuation with an error, leaving the queue as it was. */
  function OnReadyTimeout<C>(g: Gate<C>): (r: GateStep<C>)
    requires g.timerArmed
    ensures !r.gate.timerArmed && r.gate.queue == g.queue && r.armMs.None?
    ensures |r.calls| == |g.queue|
    ensures forall i :: 0 <= i < |g.queue| ==> r.calls[i] == Call(g.queue[i], TimedOut)
  {
    GateStep(Gate(g.queue, false), Release(g.queue, TimedOut), None)
  }

  /** The loader changes state: on reaching the loaded state every queued
      continuation is called to go ahead.  The gate itself does not change. */
  function OnLoaderState<C>(g: Gate<C>, to: int): (r: GateStep<C>)
    ensures r.gate == g && r.armMs.None?
    ensures to != Loaded ==> r.calls == []
    ensures to == Loaded ==> |r.calls| == |g.queue|
    ensures to == Loaded ==> forall i :: 0 <= i < |g.queue| ==> r.calls[i] == Call(g.queue[i], Proceed)
  {
    GateStep(g, if to == Loaded then Release(g.queue, Proceed) else [], None)
  }

  /** Several operations ask in turn: the final gate, every call made, and
      the number of timers armed along the way. */
  datatype Batch<C> = Batch(gate: Gate<C>, calls: seq<Call<C>>, armed: nat)

  function CallMany<C>(g: Gate<C>, loaderState: int, readyTimeout: int, cbs: seq<C>): Batch<C>
    decreases |cbs|
  {
    if |cbs| == 0 then Batch(g, [], 0)
    else
      var st := CallOnReady(g, loaderState, readyTimeout, cbs[0]);
      var rest := CallMany(st.gate, loaderState, readyTimeout, cbs[1..]);
      Batch(rest.gate, st.calls + rest.calls, rest.armed + if st.armMs.Some? then 1 else 0)
  }

  /** While the scripts are not loaded, any number of waiting operations share
      one timeout timer: at most one is armed, and only if none was before.
      Every operation is queued, in order, and none runs. */
  lemma {:induction false} WaitersShareOneTimer<C>(g: Gate<C>, loaderState: int, readyTimeout: int, cbs: seq<C>)
    requires loaderState != Loaded
    ensures CallMany(g, loaderState, readyTimeout, cbs).gate.queue == g.queue + cbs
    ensures CallMany(g, loaderState, readyTimeout, cbs).calls == []
    ensures CallMany(g, loaderState, readyTimeout, cbs).armed == if g.timerArmed || |cbs| == 0 then 0 else 1
    ensures CallMany(g, loaderState, readyTimeout, cbs).gate.timerArmed == (g.timerArmed || |cbs| > 0)
    decreases |cbs|
  {
    if |cbs| > 0 {
      var st := CallOnReady(g, loaderState, readyTimeout, cbs[0]);
      WaitersShareOneTimer(st.gate, loaderState, readyTimeout, cbs[1..]);
      assert st.gate.queue + cbs[1..] == g.queue + cbs;
    }
  }

  /** Once loaded, every operation runs at once, in order, and the gate
      does not change. */
  lemma {:induction false} LoadedRunsAtOnce<C>(g: Gate<C>, readyTimeout: int, cbs: seq<C>)
    ensures CallMany(g, Loaded, readyTimeout, cbs) == Batch(g, Release(cbs, Proceed), 0)
    decreases |cbs|
  {
    if |cbs| > 0 {
      LoadedRunsAtOnce(g, readyTimeout, cbs[1..]);
      assert [Call(cbs[0], Proceed)] + Release(cbs[1..], Proceed) == Release(cbs, Proceed);
    }
  }

  /** Operations that waited from a fresh gate all fail, in order, when the
      timer fires, and still remain queued afterwards. */
  lemma WaitersAllTimeOut<C>(loaderState: int, readyTimeout: int, cbs: seq<C>)
    requires loaderState != Loaded && |cbs| > 0
    ensures CallMany(Gate([], false), loaderState, readyTimeout, cbs).gate.timerArmed
    ensures OnReadyTimeout(CallMany(Gate([], false), loaderState, readyTimeout, cbs).gate)
            == GateStep(Gate(cbs, false), Release(cbs, TimedOut), None)
  {
    WaitersShareOneTimer(Gate([], false), loaderState, readyTimeout, cbs);
    assert [] + cbs == cbs;
  }

  /** A continuation released because the loader reached the loaded state is
      called a second time, with an error, when the still-armed timer fires. */
  lemma ReleasedWaiterAlsoTimesOut<C>(g: Gate<C>, loaderState: int, readyTimeout: int, cb: C)
    requires loaderState != Loaded
    ensures var w := CallOnReady(g, loaderState, readyTimeout, cb).gate;
      && Call(cb, Proceed) in OnLoaderState(w, Loaded).calls
      && w.timerArmed
      && Call(cb, TimedOut) in OnReadyTimeout(OnLoaderState(w, Loaded).gate).calls
  {
    var w := CallOnReady(g, loaderState, readyTimeout, cb).gate;
    var i := |w.queue| - 1;
    assert w.queue[i] == cb;
    assert OnLoaderState(w, Loaded).calls[i] == Call(cb, Proceed);
    assert OnReadyTimeout(w).calls[i] == Call(cb, TimedOut);
  }

  /** After the timer has fired, a new waiter arms a fresh timer, whose firing
      calls the earlier waiters with an error again. */
  lemma TimeoutRepeatsForOldWaiters<C>(g: Gate<C>, loaderState: int, readyTimeout: int, cb: C, i: nat)
    requires g.timerArmed && loaderState != Loaded && i < |g.queue|
    ensures var fired := OnReadyTimeout(g).gate;
      var st := CallOnReady(fired, loaderState, readyTimeout, cb);
      && st.armMs == Some(readyTimeout * 1000)
      && OnReadyTimeout(st.gate).calls[i] == Call(g.queue[i], TimedOut)
  {
  }
}

=== FILE: roster.dfy ===
/**
 * The roster of node channels, a list kept in recency order: a node is
 * registered by removing every copy of its channel (LREM with count 0) and
 * pushing it onto the head (LPUSH), and deregistered by the removal alone.
 */
module Roster {

  /** The roster with every occurrence of `x` removed, others in order. */
  function RemoveAll(s: seq<string>, x: string): (r: seq<string>)
    ensures x !in r
    ensures forall y :: y in r ==> y in s
    ensures |r| <= |s|
  {
    if |s| == 0 then []
    else (if s[0] == x then [] else [s[0]]) + RemoveAll(s[1..], x)
  }

  /** Registration: every copy of `x` removed, then `x` pushed onto the head. */
  function Promote(s: seq<string>, x: string): (r: seq<string>)
    ensures |r| > 0 && r[0] == x
  {
    [x] + RemoveAll(s, x)
  }

  /** Every entry occurs at most once. */
  ghost predicate Distinct(s: seq<string>) {
    forall y :: multiset(s)[y] <= 1
  }

  ghost function Members(s: seq<string>): set<string> {
    set y | y in s
  }

  /** Removal drops exactly the copies of `x` and no other entry. */
  lemma {:induction false} RemoveAllCounts(s: seq<string>, x: string)
    ensures multiset(RemoveAll(s, x)) == multiset(s)[x := 0]
  {
    if |s| > 0 {
      RemoveAllCounts(s[1..], x);
      assert s == [s[0]] + s[1..];
      assert multiset(s) == multiset{s[0]} + multiset(s[1..]);
    }
  }

  /** Removal keeps the relative order of the remaining entries: it acts on
      each part of a roster independently. */
  lemma {:induction false} RemoveAllConcat(a: seq<string>, b: seq<string>, x: string)
    ensures RemoveAll(a + b, x) == RemoveAll(a, x) + RemoveAll(b, x)
  {
    if |a| > 0 {
      assert (a + b)[1..] == a[1..] + b;
      RemoveAllConcat(a[1..], b, x);
    } else {
      assert a + b == b;
    }
  }

  /** Removing an absent channel leaves the roster as it was. */
  lemma {:induction false} RemoveAllAbsent(s: seq<string>, x: string)
    requires x !in s
    ensures RemoveAll(s, x) == s
  {
    if |s| > 0 {
      assert x !in s[1..];
      RemoveAllAbsent(s[1..], x);
    }
  }

  /** After registration the channel occurs exactly once, at the head, and
      every other entry keeps its multiplicity. */
  lemma PromoteCounts(s: seq<string>, x: string)
    ensures multiset(Promote(s, x)) == multiset(s)[x := 1]
    ensures Promote(s, x)[0] == x && x !in Promote(s, x)[1..]
  {
    RemoveAllCounts(s, x);
    assert Promote(s, x)[1..] == RemoveAll(s, x);
  }

  /** Registering twice is the same as registering once. */
  lemma PromoteIdempotent(s: seq<string>, x: string)
    ensures Promote(Promote(s, x), x) == Promote(s, x)
  {
    var t := RemoveAll(s, x);
    assert Promote(s, x) == [x] + t;
    RemoveAllConcat([x], t, x);
    assert RemoveAll([x], x) == [];
    RemoveAllAbsent(t, x);
  }

  /** Leaving after joining removes the node entirely and leaves the other
      entries as they were before the join. */
  lemma LeaveAfterJoin(s: seq<string>, x: string)
    ensures RemoveAll(Promote(s, x), x) == RemoveAll(s, x)
  {
    var t := RemoveAll(s, x);
    RemoveAllConcat([x], t, x);
    assert RemoveAll([x], x) == [];
    RemoveAllAbsent(t, x);
  }

  /** Registration and removal keep the roster free of duplicates. */
  lemma PromotePreservesDistinct(s: seq<string>, x: string)
    requires Distinct(s)
    ensures Distinct(Promote(s, x)) && Members(Promote(s, x)) == Members(s) + {x}
  {
    PromoteCounts(s, x);
    var r := Promote(s, x);
    forall y | y in Members(r) ensures y in Members(s) + {x} {
      assert multiset(r)[y] > 0;
    }
    forall y | y in Members(s) + {x} ensures y in Members(r) {
      if y != x {
        assert multiset(s)[y] > 0;
        assert multiset(r)[y] > 0;
      }
    }
  }

  lemma RemoveAllPreservesDistinct(s: seq<string>, x: string)
    requires Distinct(s)
    ensures Distinct(RemoveAll(s, x)) && Members(RemoveAll(s, x)) == Members(s) - {x}
  {
    RemoveAllCounts(s, x);
    var r := RemoveAll(s, x);
    forall y | y in Members(s) - {x} ensures y in Members(r) {
      assert multiset(s)[y] > 0;
      assert multiset(r)[y] > 0;
    }
  }

  /** A duplicate-free roster is as long as the number of nodes it names. */
  lemma {:induction false} DistinctLength(s: seq<string>)
    requires Distinct(s)
    ensures |s| == |Members(s)|
  {
    if |s| > 0 {
      var t := s[1..];
      assert s == [s[0]] + t;
      assert multiset(s) == multiset{s[0]} + multiset(t);
      assert Distinct(t) by {
        forall y ensures multiset(t)[y] <= 1 {
          assert multiset(t)[y] <= multiset(s)[y];
        }
      }
      assert multiset(s)[s[0]] == 1 + multiset(t)[s[0]];
      assert multiset(t)[s[0]] == 0;
      assert s[0] !in t;
      DistinctLength(t);
      assert Members(s) == {s[0]} + Members(t);
    }
  }

  /** The roster after the nodes in `xs` have registered one after another. */
  function JoinAll(s: seq<string>, xs: seq<string>): seq<string>
    decreases |xs|
  {
    if |xs| == 0 then s else JoinAll(Promote(s, xs[0]), xs[1..])
  }

  lemma {:induction false} JoinAllMembers(s: seq<string>, xs: seq<string>)
    requires Distinct(s)
    ensures Distinct(JoinAll(s, xs)) && Members(JoinAll(s, xs)) == Members(s) + Members(xs)
    decreases |xs|
  {
    if |xs| > 0 {
      PromotePreservesDistinct(s, xs[0]);
      JoinAllMembers(Promote(s, xs[0]), xs[1..]);
      assert xs == [xs[0]] + xs[1..];
      assert Members(xs) == {xs[0]} + Members(xs[1..]);
    }
  }

  /** N distinct nodes joining an empty roster leave it with N entries,
      whatever order they join in and however often each one re-joins. */
  lemma JoinedRosterSize(xs: seq<string>)
    ensures |JoinAll([], xs)| == |Members(xs)|
    ensures Distinct(xs) ==> |JoinAll([], xs)| == |xs|
  {
    var empty: seq<string> := [];
    assert Distinct(empty) by {
      forall y ensures multiset(empty)[y] <= 1 {}
    }
    JoinAllMembers(empty, xs);
    assert Members(empty) == {};
    DistinctLength(JoinAll([], xs));
    if Distinct(xs) {
      DistinctLength(xs);
    }
  }
}

=== FILE: store.dfy ===
/**
 * The shared store as the client drives it.  Each public operation reads the
 * store clock, queues a few commands in one transaction and ends that
 * transaction with a run of the server-side update script.  The script's text
 * is not part of this model: it is a parameter, a function from the store and
 * its arguments to a new store and a reply.
 */
module Store {
  import opened Base
  import Roster

  /** Event ids are the values of the store's event counter. */
  type EventId = int

  /**
   * The keys the client touches: the roster (`:ch`), the pending index
   * (`:ei`, id to due time), the payload map (`:ed`, id to serialised
   * message) and the `eventId` field of the counter map (`:gl`).
   */
  datatype Store = Store(
    roster: seq<string>,
    pending: map<EventId, int>,
    payloads: map<EventId, string>,
    counter: int)

  /** Script arguments: the harvesting node's channel (empty for none), the
      store time in milliseconds, and the largest batch it may take. */
  datatype UpdateArgs = UpdateArgs(requester: string, now: int, maxEvents: int)

  /** Script reply: the harvested payload texts and the next wake interval. */
  datatype UpdateReply = UpdateReply(payloads: seq<string>, interval: int)

  datatype Updated = Updated(store: Store, reply: UpdateReply)

  type UpdateScript = (Store, UpdateArgs) -> Updated

  /** The arguments of a run that only refreshes the schedule. */
  function RefreshArgs(now: int): UpdateArgs {
    UpdateArgs("", now, 0)
  }

  /** The reply of the store's TIME command: seconds and microseconds. */
  datatype TimeReply = Time(sec: int, usec: int) | TimeFailed

  /**
   * Store time in milliseconds.  The divisor is positive, so Dafny's
   * Euclidean division is the floor the client applies.
   */
  function NowMs(sec: int, usec: int): (ms: int)
    ensures 0 <= usec < 1000000 ==> sec * 1000 <= ms <= sec * 1000 + 999
  {
    sec * 1000 + usec / 1000
  }

  /** The millisecond value keeps the seconds and the whole milliseconds of
      the reply, and nothing finer. */
  lemma NowMsDecodes(sec: int, usec: int)
    requires 0 <= usec < 1000000
    ensures NowMs(sec, usec) / 1000 == sec
    ensures NowMs(sec, usec) % 1000 == usec / 1000
  {
  }

  /** Later clock readings never give an earlier time. */
  lemma NowMsMonotonic(sec1: int, usec1: int, sec2: int, usec2: int)
    requires 0 <= usec1 < 1000000 && 0 <= usec2 < 1000000
    requires sec1 < sec2 || (sec1 == sec2 && usec1 <= usec2)
    ensures NowMs(sec1, usec1) <= NowMs(sec2, usec2)
  {
  }

  // ---------------------------------------------------------------------
  // Client edits: what each transaction does before the script runs.
  // ---------------------------------------------------------------------

  /** Join: the node's channel is removed everywhere and pushed to the head. */
  function JoinEdit(s: Store, channel: string): (r: Store)
    ensures |r.roster| > 0 && r.roster[0] == channel && channel !in r.roster[1..]
    ensures forall c :: c != channel ==> multiset(r.roster)[c] == multiset(s.roster)[c]
    ensures r.pending == s.pending && r.payloads == s.payloads && r.counter == s.counter
  {
    Roster.PromoteCounts(s.roster, channel);
    s.(roster := Roster.Promote(s.roster, channel))
  }

  /** Leave: every copy of the node's channel is removed. */
  function LeaveEdit(s: Store, channel: string): (r: Store)
    ensures channel !in r.roster
    ensures forall c :: c != channel ==> multiset(r.roster)[c] == multiset(s.roster)[c]
    ensures r.pending == s.pending && r.payloads == s.payloads && r.counter == s.counter
  {
    Roster.RemoveAllCounts(s.roster, channel);
    s.(roster := Roster.RemoveAll(s.roster, channel))
  }

  /** Post, first command: the counter is incremented (outside the
      transaction). */
  function Increment(s: Store): (r: Store)
    ensures r.counter == s.counter + 1
    ensures r.(counter := s.counter) == s
  {
    s.(counter := s.counter + 1)
  }

  /** Post, inside the transaction: the new id is scheduled at `due` and its
      message stored. */
  function Schedule(s: Store, id: EventId, due: int, msg: string): (r: Store)
    ensures id in r.pending && r.pending[id] == due
    ensures id in r.payloads && r.payloads[id] == msg
    ensures forall k :: k != id ==> (k in r.pending <==> k in s.pending)
    ensures forall k :: k != id && k in s.pending ==> r.pending[k] == s.pending[k]
    ensures forall k :: k != id ==> (k in r.payloads <==> k in s.payloads)
    ensures forall k :: k != id && k in s.payloads ==> r.payloads[k] == s.payloads[k]
    ensures r.roster == s.roster && r.counter == s.counter
  {
    s.(pending := s.pending[id := due], payloads := s.payloads[id := msg])
  }

  /** The whole client side of a post: increment, then schedule the new id. */
  function PostEdit(s: Store, now: int, delay: int, msg: string): (r: Store)
    ensures r.counter == s.counter + 1
    ensures r.counter in r.pending && r.pending[r.counter] == now + delay
    ensures r.counter in r.payloads && r.payloads[r.counter] == msg
    ensures forall k :: k != r.counter ==> (k in r.pending <==> k in s.pending)
    ensures forall k :: k != r.counter && k in s.pending ==> r.pending[k] == s.pending[k]
    ensures forall k :: k != r.counter ==> (k in r.payloads <==> k in s.payloads)
    ensures forall k :: k != r.counter && k in s.payloads ==> r.payloads[k] == s.payloads[k]
    ensures r.roster == s.roster
  {
    var t := Increment(s);
    Schedule(t, t.counter, now + delay, msg)
  }

  /** Cancel: the id leaves both the pending index and the payload map. */
  function CancelEdit(s: Store, id: EventId): (r: Store)
    ensures id !in r.pending && id !in r.payloads
    ensures forall k :: k != id ==> (k in r.pending <==> k in s.pending)
    ensures forall k :: k != id && k in s.pending ==> r.pending[k] == s.pending[k]
    ensures forall k :: k != id ==> (k in r.payloads <==> k in s.payloads)
    ensures forall k :: k != id && k in s.payloads ==> r.payloads[k] == s.payloads[k]
    ensures r.roster == s.roster && r.counter == s.counter
  {
    s.(pending := s.pending - {id}, payloads := s.payloads - {id})
  }

  /** Every stored id was handed out by the counter, so the next one is fresh. */
  ghost predicate IdsIssued(s: Store) {
    && (forall k :: k in s.pending ==> k <= s.counter)
    && (forall k :: k in s.payloads ==> k <= s.counter)
  }

  lemma EditsKeepIdsIssued(s: Store, channel: string, now: int, delay: int, msg: string, id: EventId)
    requires IdsIssued(s)
    ensures IdsIssued(JoinEdit(s, channel)) && IdsIssued(LeaveEdit(s, channel))
    ensures IdsIssued(PostEdit(s, now, delay, msg)) && IdsIssued(CancelEdit(s, id))
  {
  }

  /** Cancelling an id that is in neither map changes nothing. */
  lemma CancelAbsent(s: Store, id: EventId)
    requires id !in s.pending && id !in s.payloads
    ensures CancelEdit(s, id) == s
  {
  }

  /** Cancelling twice is the same as cancelling once. */
  lemma CancelIdempotent(s: Store, id: EventId)
    ensures CancelEdit(CancelEdit(s, id), id) == CancelEdit(s, id)
  {
  }

  /** Posting a fresh event and cancelling it restores both maps; only the
      counter stays advanced. */
  lemma PostThenCancel(s: Store, now: int, delay: int, msg: string)
    requires IdsIssued(s)
    ensures CancelEdit(PostEdit(s, now, delay, msg), s.counter + 1) == Increment(s)
  {
  }

  // ---------------------------------------------------------------------
  // Transactions, with the ways the store round trips can fail.
  // ---------------------------------------------------------------------

  /**
   * How the store answers one operation: the TIME reply, whether the counter
   * increment succeeds (post only) and whether the transaction executes.  A
   * transaction that fails leaves the store as it was.
   */
  datatype StoreIo = StoreIo(time: TimeReply, counterOk: bool, execOk: bool)

  /** How an operation ends: Failed when an error is reported; DoneWithId
      carries a post's event id to its callback; DoneWithInterval carries the
      join reply's interval to the node's wake timer (join's callback itself
      gets no arguments); Done is a plain success, which for leave stands for
      the unsubscribe acknowledgement. */
  datatype Outcome = Done | DoneWithId(id: EventId) | DoneWithInterval(interval: int) | Failed

  datatype StoreStep = StoreStep(store: Store, outcome: Outcome)

  /** Join: promote the channel and refresh; the reply's interval is returned
      for the node's wake timer. */
  function JoinTx(s: Store, channel: string, io: StoreIo, update: UpdateScript): (r: StoreStep)
    ensures r.outcome.Failed? <==> io.time.TimeFailed? || !io.execOk
    ensures r.outcome.Failed? ==> r.store == s
    ensures !r.outcome.Failed? ==>
      var u := update(JoinEdit(s, channel), RefreshArgs(NowMs(io.time.sec, io.time.usec)));
      r == StoreStep(u.store, DoneWithInterval(u.reply.interval))
  {
    if io.time.TimeFailed? || !io.execOk then StoreStep(s, Failed)
    else
      var u := update(JoinEdit(s, channel), RefreshArgs(NowMs(io.time.sec, io.time.usec)));
      StoreStep(u.store, DoneWithInterval(u.reply.interval))
  }

  /** Leave: remove the channel and refresh.  The transaction's result is
      ignored: whether or not it executed, the node unsubscribes and the
      callback waits for the unsubscribe acknowledgement (Done). */
  function LeaveTx(s: Store, channel: string, io: StoreIo, update: UpdateScript): (r: StoreStep)
    ensures r.outcome.Failed? <==> io.time.TimeFailed?
    ensures r.outcome.Failed? || !io.execOk ==> r.store == s
    ensures !r.outcome.Failed? ==> r.outcome == Done
    ensures io.time.Time? && io.execOk ==>
      r.store == update(LeaveEdit(s, channel), RefreshArgs(NowMs(io.time.sec, io.time.usec))).store
  {
    if io.time.TimeFailed? then StoreStep(s, Failed)
    else if !io.execOk then StoreStep(s, Done)
    else StoreStep(update(LeaveEdit(s, channel), RefreshArgs(NowMs(io.time.sec, io.time.usec))).store, Done)
  }

  /** Post: increment the counter, then schedule the message under the new id
      at store time plus `delay`, and refresh. */
  function PostTx(s: Store, msg: string, delay: int, io: StoreIo, update: UpdateScript): (r: StoreStep)
    ensures r.outcome.Failed? <==> io.time.TimeFailed? || !io.counterOk || !io.execOk
    ensures io.time.TimeFailed? || !io.counterOk ==> r.store == s
    ensures io.time.Time? && io.counterOk && !io.execOk ==> r.store == Increment(s)
    ensures !r.outcome.Failed? ==> r.outcome == DoneWithId(s.counter + 1)
    ensures !r.outcome.Failed? ==>
      var now := NowMs(io.time.sec, io.time.usec);
      r.store == update(PostEdit(s, now, delay, msg), RefreshArgs(now)).store
  {
    if io.time.TimeFailed? || !io.counterOk then StoreStep(s, Failed)
    else
      var now := NowMs(io.time.sec, io.time.usec);
      var t := Increment(s);
      if !io.execOk then StoreStep(t, Failed)
      else StoreStep(update(Schedule(t, t.counter, now + delay, msg), RefreshArgs(now)).store, DoneWithId(t.counter))
  }

  /** Cancel: drop the id from both maps and refresh. */
  function CancelTx(s: Store, id: EventId, io: StoreIo, update: UpdateScript): (r: StoreStep)
    ensures r.outcome.Failed? <==> io.time.TimeFailed? || !io.execOk
    ensures r.outcome.Failed? ==> r.store == s
    ensures !r.outcome.Failed? ==> r.outcome == Done
    ensures !r.outcome.Failed? ==>
      r.store == update(CancelEdit(s, id), RefreshArgs(NowMs(io.time.sec, io.time.usec))).store
  {
    if io.time.TimeFailed? || !io.execOk then StoreStep(s, Failed)
    else StoreStep(update(CancelEdit(s, id), RefreshArgs(NowMs(io.time.sec, io.time.usec))).store, Done)
  }

  /** The script leaves the event counter alone. */
  ghost predicate KeepsCounter(update: UpdateScript) {
    forall st, a :: update(st, a).store.counter == st.counter
  }

  /** The script leaves the roster alone. */
  ghost predicate KeepsRoster(update: UpdateScript) {
    forall st, a :: update(st, a).store.roster == st.roster
  }

  /** With a script that leaves the counter alone, two successful posts in a
      row receive consecutive, hence distinct, ids. */
  lemma SuccessivePostsGetDistinctIds(s: Store, m1: string, d1: int, io1: StoreIo,
                                      m2: string, d2: int, io2: StoreIo, update: UpdateScript)
    requires KeepsCounter(update)
    requires PostTx(s, m1, d1, io1, update).outcome.DoneWithId?
    requires PostTx(PostTx(s, m1, d1, io1, update).store, m2, d2, io2, update).outcome.DoneWithId?
    ensures PostTx(PostTx(s, m1, d1, io1, update).store, m2, d2, io2, update).outcome.id
            == PostTx(s, m1, d1, io1, update).outcome.id + 1
  {
  }

  /** A failed post still consumes an id once the counter was incremented, so
      the next successful post skips it. */
  lemma FailedPostConsumesId(s: Store, m1: string, d1: int, io1: StoreIo,
                             m2: string, d2: int, io2: StoreIo, update: UpdateScript)
    requires io1.time.Time? && io1.counterOk && !io1.execOk
    requires PostTx(PostTx(s, m1, d1, io1, update).store, m2, d2, io2, update).outcome.DoneWithId?
    ensures PostTx(PostTx(s, m1, d1, io1, update).store, m2, d2, io2, update).outcome.id == s.counter + 2
  {
  }

  /** With a script that leaves the roster alone, a successful join puts the
      channel once at the head and a successful leave removes it, other
      entries keeping their order. */
  lemma JoinLeaveRoster(s: Store, channel: string, io: StoreIo, update: UpdateScript)
    requires KeepsRoster(update)
    ensures !JoinTx(s, channel, io, update).outcome.Failed? ==>
      JoinTx(s, channel, io, update).store.roster == Roster.Promote(s.roster, channel)
    ensures io.time.Time? && io.execOk ==>
      LeaveTx(s, channel, io, update).store.roster == Roster.RemoveAll(s.roster, channel)
  {
  }
}

=== FILE: wake.dfy ===
/**
 * The node's single wake timer.  The timer slot holds the interval the armed
 * timer was set for, or None.  Three things drive it: wake messages on the
 * node's pub/sub channel, the reply to a join, and the completion of a
 * timeout run of the update script, which also hands out harvested payloads.
 */
module Wake {
  import opened Base

  /** The interval a node re-arms with after the update script failed. */
  const ErrorFallbackInterval: int := 3000

  /** A notification the node emits to its application. */
  datatype Emission = EventOut(value: JsonValue) | ErrorOut

  datatype WakeStep = WakeStep(timer: Option<int>, emitted: seq<Emission>)

  /** The numeric `interval` property of a parsed wake message, if it has one. */
  function NumericInterval(v: JsonValue): Option<int> {
    match Property(v, "interval")
    case Some(JNumber(n)) => Some(n)
    case _ => None
  }

  /**
   * A wake message.  A text that does not parse, or that parses to null (whose
   * properties cannot be read), is reported as an error and changes nothing.
   * A numeric interval replaces the armed timer, whatever it was set for; any
   * other message is ignored silently.
   */
  function OnSubMessage(timer: Option<int>, m: ParseResult): (r: WakeStep)
    ensures m.Malformed? || m == Parsed(JNull) ==> r == WakeStep(timer, [ErrorOut])
    ensures m.Parsed? && m.value != JNull ==> r.emitted == []
    ensures m.Parsed? && m.value != JNull && NumericInterval(m.value).Some? ==>
      r.timer == NumericInterval(m.value)
    ensures m.Parsed? && NumericInterval(m.value).None? ==> r.timer == timer
    ensures timer.Some? ==> r.timer.Some?
  {
    match m
    case Malformed => WakeStep(timer, [ErrorOut])
    case Parsed(JNull) => WakeStep(timer, [ErrorOut])
    case Parsed(v) =>
      match NumericInterval(v)
      case Some(n) => WakeStep(Some(n), [])
      case None => WakeStep(timer, [])
  }

  /** When the key is repeated the last member decides: `{"interval": 5,
      "interval": true}` carries no numeric interval and is ignored. */
  lemma RepeatedIntervalLastWins(timer: Option<int>)
    ensures var m := JObject([Member("interval", JNumber(5)), Member("interval", JBool(true))]);
      && Property(m, "interval") == Some(JBool(true))
      && OnSubMessage(timer, Parsed(m)) == WakeStep(timer, [])
  {
  }

  /** A message `{"interval": n}`. */
  function IntervalMessage(n: int): ParseResult {
    Parsed(JObject([Member("interval", JNumber(n))]))
  }

  /** The armed interval is replaced, not lowered to the smaller of the two:
      a longer announced interval lengthens a shorter armed timer (as long as
      it stays within setTimeout's 2147483647 ms limit, above which Node fires
      after 1 ms). */
  lemma MessageReplacesTimer(current: int, n: int)
    ensures OnSubMessage(Some(current), IntervalMessage(n)) == WakeStep(Some(n), [])
    ensures n > current ==> OnSubMessage(Some(current), IntervalMessage(n)).timer.value > current
  {
  }

  /** `{"interval": true}` neither arms a timer nor reports an error. */
  lemma NonNumericIntervalIgnored(timer: Option<int>)
    ensures OnSubMessage(timer, Parsed(JObject([Member("interval", JBool(true))]))) == WakeStep(timer, [])
  {
  }

  /** Receiving the same wake message twice leaves the same armed interval as
      receiving it once.  (The second message restarts the countdown; the
      timer slot records only the interval, not when it was armed.) */
  lemma OnSubMessageIdempotent(timer: Option<int>, m: ParseResult)
    ensures OnSubMessage(OnSubMessage(timer, m).timer, m).timer == OnSubMessage(timer, m).timer
  {
  }

  /** The events emitted for a batch of harvested payloads: one per payload
      that parses, in reply order; payloads that do not parse are skipped. */
  function Events(ps: seq<ParseResult>): (es: seq<Emission>)
    ensures |es| <= |ps|
    ensures forall e :: e in es ==> e.EventOut? && Parsed(e.value) in ps
  {
    if |ps| == 0 then []
    else (if ps[0].Parsed? then [EventOut(ps[0].value)] else []) + Events(ps[1..])
  }

  function CountParsed(ps: seq<ParseResult>): nat {
    if |ps| == 0 then 0 else (if ps[0].Parsed? then 1 else 0) + CountParsed(ps[1..])
  }

  /** Emission works payload by payload, so it keeps the reply's order. */
  lemma {:induction false} EventsConcat(a: seq<ParseResult>, b: seq<ParseResult>)
    ensures Events(a + b) == Events(a) + Events(b)
  {
    if |a| > 0 {
      assert (a + b)[1..] == a[1..] + b;
      EventsConcat(a[1..], b);
    } else {
      assert a + b == b;
    }
  }

  /** Exactly one event per payload that parses. */
  lemma {:induction false} EventsCount(ps: seq<ParseResult>)
    ensures |Events(ps)| == CountParsed(ps)
  {
    if |ps| > 0 {
      EventsCount(ps[1..]);
    }
  }

  /** When every payload parses, the i-th event carries the i-th payload. */
  lemma {:induction false} EventsAllParsed(ps: seq<ParseResult>)
    requires forall i :: 0 <= i < |ps| ==> ps[i].Parsed?
    ensures |Events(ps)| == |ps|
    ensures forall i :: 0 <= i < |ps| ==> Events(ps)[i] == EventOut(ps[i].value)
  {
    if |ps| > 0 {
      EventsAllParsed(ps[1..]);
    }
  }

  /** The update script's answer to a timeout run. */
  datatype ScriptOutcome = ScriptFailed | ScriptReply(payloads: seq<ParseResult>, interval: int)

  /** A timeout run starts by forgetting the timer that just fired. */
  function OnTimeoutStart(timer: Option<int>): (r: Option<int>)
    ensures r.None?
  {
    None
  }

  /**
   * A timeout run completes.  On a script error the interval is the fallback;
   * otherwise every payload that parses is emitted and the interval is the
   * reply's.  The timer is re-armed only if no wake message armed one while
   * the script ran.
   */
  function OnTimeoutComplete(timer: Option<int>, o: ScriptOutcome): (r: WakeStep)
    ensures r.timer.Some?
    ensures timer.Some? ==> r.timer == timer
    ensures timer.None? && o.ScriptFailed? ==> r.timer == Some(ErrorFallbackInterval)
    ensures timer.None? && o.ScriptReply? ==> r.timer == Some(o.interval)
    ensures o.ScriptFailed? ==> r.emitted == []
    ensures o.ScriptReply? ==> |r.emitted| == CountParsed(o.payloads)
    ensures forall e :: e in r.emitted ==> e.EventOut? && o.ScriptReply? && Parsed(e.value) in o.payloads
  {
    match o
    case ScriptFailed =>
      WakeStep(if timer.None? then Some(ErrorFallbackInterval) else timer, [])
    case ScriptReply(payloads, interval) =>
      EventsCount(payloads);
      WakeStep(if timer.None? then Some(interval) else timer, Events(payloads))
  }

  /** A wake message that arrives while a timeout run is in flight wins over
      the interval the run brings back. */
  lemma MessageDuringTimeoutWins(timer: Option<int>, n: int, o: ScriptOutcome)
    ensures OnTimeoutComplete(OnSubMessage(OnTimeoutStart(timer), IntervalMessage(n)).timer, o).timer == Some(n)
  {
  }

  /** Without an intervening wake message, the run re-arms with the reply's
      interval, or with the fallback when the script failed. */
  lemma UndisturbedTimeoutRearms(timer: Option<int>, o: ScriptOutcome)
    ensures OnTimeoutComplete(OnTimeoutStart(timer), o).timer
            == Some(if o.ScriptFailed? then ErrorFallbackInterval else o.interval)
  {
  }
}
